=== FILE: README.md ===
# Portfolio gallery script, modelled in Dafny

`app.js` renders a static image gallery. It reads a manifest, `gallery.json`, that lists filenames for three sections (NFT, Mobile, Personal). It turns each filename into a thumbnail button with an escaped title, and it runs a mobile header with a burger menu that hides while the page scrolls down. This project models the logic of that script that can be stated precisely:

- `HtmlEscape` (`escape.dfy`): `escapeHtml`, written as the five chained `replaceAll` calls. It is proved equal to a per-character escape. A decoder for the five character references completes the round trip.
- `Json` (`json.dfy`): the parsed manifest value, `normalizeArray`, and the string conversion a template literal applies to a filename (`${filename}`).
- `Decimal` (`decimal.dfy`): the decimal text of a number. It gives the `#n` in item titles and the text of numeric filenames.
- `Gallery` (`gallery.dfy`): the section table and the item records built from each filename list (title, type, the two URLs, the priority flag). It also holds the attribute values `itemHtml` derives from a record, and the build of all three sections from a parsed manifest.
- `Nav` (`nav.dfy`): the header state (last scroll position, hidden bar, open menu, scroll lock). It holds the pure transition functions, the lemmas over traces of scroll frames, and the class `NavBar`, whose methods update the state in place as the event handlers do.

The gallery is built from a manifest of exact filenames. The script has no code that probes file extensions or tests whether an image exists, so the model has none either.

## Model

| member | source | states |
|---|---|---|
| `HtmlEscape.ReplaceAll` | app.js:18-22 | replacing a character that does not occur leaves the text unchanged; a non-empty replacement never shortens the text |
| `HtmlEscape.EscapeHtml` | app.js:16-23 | the five replacements in source order, `&` first; the result is never shorter than the input and equals it when no special character occurs (its full behaviour is stated by the lemmas below) |
| `HtmlEscape.EscapeHtmlChar` | app.js:18-22 | on a single character, the five chained replacements give exactly that character's reference, or the character itself; a reference one step introduces holds nothing a later step replaces |
| `HtmlEscape.EscapeHtmlConcat` | app.js:16-23 | escaping the concatenation of two texts gives the concatenation of their escapes |
| `HtmlEscape.EscapeHtmlIsPerCharacter` | app.js:16-23 | the chain of replacements, `&` first, equals escaping every character independently, in order |
| `HtmlEscape.UnescapeEscape` | app.js:16-23 | decoding the five references in escaped text gives back the input exactly, so nothing is double-escaped |
| `HtmlEscape.EscapeHtmlInjective` | app.js:16-23 | two texts have the same escape if and only if they are equal |
| `HtmlEscape.EscapeHtmlMarkupFree` | app.js:16-23 | escaped text contains no `<`, `>`, `"` or `'` |
| `HtmlEscape.EscapeHtmlAmpersands` | app.js:18-22 | every `&` in escaped text begins one of `&amp;` `&lt;` `&gt;` `&quot;` `&#039;` |
| `HtmlEscape.EscapeHtmlLength` | app.js:18-22 | output length = input length + 4 per `&`, + 3 per `<` or `>`, + 5 per `"` or `'` (that is, 5, 4 or 6 characters for each special character and 1 for any other) |
| `HtmlEscape.EscapeHtmlFixedPoint` | app.js:16-23 | escaping leaves a text unchanged if and only if it contains none of the five special characters |
| `HtmlEscape.EscapeHtmlPlacement` | app.js:16-23 | the escape of input character i appears immediately after the escapes of the characters before it, so ordinary characters are kept, in order |
| `Decimal.NatText` | app.js:91-92 | the numeral in a title is a non-empty run of digits with no leading zero |
| `Decimal.ParseNatText` | app.js:91-92 | reading the numeral back gives the number |
| `Decimal.NatTextInjective` | app.js:91-92 | two numbers have the same numeral if and only if they are equal |
| `Decimal.IntText` | app.js:98-99 | for magnitudes up to 2^53, as JavaScript prints them: the text of a non-negative integer filename is its numeral: digits with no leading zero (except 0 itself) that read back as the integer; a negative integer gives `-` followed by the numeral of its magnitude, again with no leading zero |
| `Json.NormalizeArray` | app.js:82-84 | an array is returned unchanged; any other value, absent fields included, becomes the empty list |
| `Json.TemplateText` | app.js:98-99 | a string filename is interpolated as itself; only arrays and objects can make the conversion throw |
| `Json.FileNames` | app.js:90-99 | a successful conversion has one name per list member, each the template text of that member; the list throws if and only if some member's conversion throws |
| `Json.FileNamesOfStrings` | app.js:98-99 | a list of strings converts to exactly those strings |
| `Gallery.BuildSection` | app.js:86-102 | one item per filename, in input order; item i has the section's default type; its thumbnail URL is `THUMB_DIR` followed by filename i and its full URL is `FULL_DIR` followed by the same filename; it is priority if and only if the section is the first and i < 6 |
| `Gallery.ItemTitle` | app.js:91-92 | a title is the section prefix, then " #", then a digit run with no leading zero that reads back as the item's position plus one, which determines the title completely |
| `Gallery.SectionTitleNumber` | app.js:90-92 | item i's title is the section prefix, then " #", then a digit run with no leading zero that reads as i + 1 |
| `Gallery.SectionTitlesDistinct` | app.js:90-92 | no two items of a section have the same title |
| `Gallery.SectionPriorityCount` | app.js:93 | the number of priority items is min(6, number of files) in the first section and 0 in the others |
| `Gallery.ItemMarkup` | app.js:47-52 | the title and type written to markup are escaped: they decode back to the record's values, contain no `<`, `>`, `"` or `'`, and every `&` in them begins one of the five references (together these fix the written value as the escape); `loading` is "eager" and `fetchpriority` is "high" exactly for priority items, and "lazy"/"auto" otherwise |
| `Gallery.GeneratedTitlesUnescaped` | app.js:47-49 | escaping leaves every generated title ("NFT #n" and so on) unchanged |
| `Gallery.ManifestField` | app.js:260-262 | reading a section field throws if and only if the manifest is null or undefined; an object gives its own member for the key, or undefined when it has none; any other value gives undefined |
| `Gallery.SectionFiles` | app.js:260-262 | a section's filename list fails if and only if the manifest is null or undefined; otherwise it is the elements of the section's field when that field is an array, and the empty list in every other case |
| `Gallery.SectionItems` | app.js:260-266 | a section builds if and only if its filename list is read and every filename converts, and then its items are exactly the section built from those names, with the priority rule applied only to the first section |
| `Gallery.BuildGallery` | app.js:256-281 | the gallery is built if and only if all three sections build, and then section k holds exactly section k's items |
| `Gallery.GalleryFails` | app.js:267-279 | a null manifest, or a filename in any section that cannot be converted, makes the whole build fail, so every grid shows the error message |
| `Gallery.MissingFieldNoItems` | app.js:260-262 | a section whose field is absent or is not an array has no items |
| `Gallery.StringManifest` | app.js:258-266 | a manifest object whose lists hold only strings builds every section from exactly those filenames, and the first section is the priority one |
| `Gallery.GalleryPriority` | app.js:264-266 | in a built gallery at most 6 items are priority, all of them in the NFT section |
| `Nav.OpenedMenu` | app.js:191-196 | opening the menu marks it open and locks page scrolling; the bar state is untouched |
| `Nav.ClosedMenu` | app.js:198-203 | closing the menu marks it closed and unlocks page scrolling; the bar state is untouched |
| `Nav.Toggled` | app.js:205-210 | the burger click flips the menu's open state, keeps the lock in step with it, and does not touch the bar |
| `Nav.Frame` | app.js:236-248 | after a frame at y: lastY = y and the menu is closed; the bar becomes hidden if y > lastY, y > 120 and abs(y - lastY) > 6; it becomes visible if y <= lastY and abs(y - lastY) > 6; otherwise it is unchanged; a consistent menu/lock state stays consistent |
| `Nav.RunEnd` | app.js:248 | after any non-empty sequence of frames the last position is recorded and the menu is closed |
| `Nav.RunNearTopStaysVisible` | app.js:245 | a visible bar stays visible through frames that never pass 120 |
| `Nav.RunSmallMovesKeepBar` | app.js:245-246 | frames that each move at most 6 never hide or show the bar |
| `Nav.RunConsistent` | app.js:240-242 | the menu and the scroll lock stay in step over any sequence of frames |
| `Nav.NavBar.constructor` | app.js:225 | the controller starts at the load-time scroll position, with the bar visible and the menu closed |
| `Nav.NavBar.OpenMenu` | app.js:191-196 | the new state is the opened-menu state |
| `Nav.NavBar.CloseMenu` | app.js:198-203 | the new state is the closed-menu state |
| `Nav.NavBar.ToggleMenu` | app.js:205-210 | the new state is the toggled state, with the lock in step with the menu |
| `Nav.NavBar.MenuClick` | app.js:213-215 | a click in the menu whose target element is itself an `a` element closes it; any other click changes nothing |
| `Nav.NavBar.Resize` | app.js:218-220 | a resize to the desktop layout closes the menu; on mobile nothing changes |
| `Nav.NavBar.Step` | app.js:236-248 | the in-place frame update leaves exactly the state `Frame` specifies, and it preserves the menu/lock invariant |
| `Nav.NavBar.Scroll` | app.js:228-253 | on the mobile layout a scroll event applies one frame; otherwise nothing changes |

## Left out

- `loadGalleryJson` and `fetch` (app.js:76-80) are network I/O, and `res.json()` is the JSON parser. The model starts from the parsed value (`Json.JsValue`). It does not model a failed fetch or a parse error, which reach the same catch block as the modelled TypeError.
- JSON numbers are modelled as integers. Fractional numbers and JavaScript's exponent notation for very large numbers are not modelled as filenames.
- `Decimal.IntText` agrees with `${n}` only for |n| <= 2^53. Above that, JavaScript prints the shortest digits that read back to the same double (2^60 prints as "1152921504606847000"), while `IntText` prints every digit, because the model's numbers are exact integers, not doubles.
- DOM reads and writes (`getElementById`, `innerHTML`, `classList`, `setAttribute`, `document.body.style`) are not modelled. The model assumes the three grid elements exist; if one is missing (`if (!root) return`, app.js:87-88), that section's filenames are never converted and cannot make `init` fail. The nav bar, the menu and the burger button are assumed present: without `nav` the scroll handler returns at once (app.js:229); without `burgerBtn` or `mobileMenu` the burger, link-click and resize handlers are never installed (app.js:205).
- The markup text of `itemHtml` (app.js:54-73) is not modelled. Its `data-full` value goes through `encodeURI` (a library call, which also throws on unpaired surrogates), and its `data-fallback` value comes from `makePlaceholderSvg` (app.js:25-45), which goes through `encodeURIComponent`. Both are library string encoders whose behaviour is not part of this model.
- `String(s)` in `escapeHtml` is not modelled: every caller passes a string.
- The modal (app.js:124-180) and the image-error fallback listener (app.js:107-122) are event-driven UI with timers. The modal also sets `document.body.style.overflow`, so outside this model the scroll lock can differ from the menu state.
- The `ticking`/`requestAnimationFrame` coalescing (app.js:226, 234-235, 249-251) depends on event-loop timing. Each processed frame is one atomic `Step(y)`. `isMobile()` (`matchMedia`, app.js:187-189) is a parameter of `Scroll` and `Resize`.
- The initial markup of the page is not part of the source. `NavBar.constructor` assumes the bar starts visible and the menu starts closed.

=== FILE: decimal.dfy ===
/** Decimal text of numbers, as a JavaScript template literal writes an
    integer-valued number (`${n}`) of magnitude at most 2^53: the item
    numbers in gallery titles and numeric filenames in the manifest. Above
    2^53 JavaScript prints the shortest digits that read back to the same
    double, which this module does not model. */
module Decimal {

  predicate IsDigit(c: char) {
    '0' <= c <= '9'
  }

  predicate IsDigits(s: string) {
    forall i :: 0 <= i < |s| ==> IsDigit(s[i])
  }

  function DigitChar(d: nat): (c: char)
    requires d < 10
    ensures IsDigit(c)
  {
    ('0' as int + d) as char
  }

  function DigitValue(c: char): (d: nat)
    requires IsDigit(c)
    ensures d < 10 && DigitChar(d) == c
  {
    c as int - '0' as int
  }

  /** The shortest decimal numeral of n: no sign, no leading zero. */
  function NatText(n: nat): (r: string)
    ensures |r| >= 1 && IsDigits(r)
    ensures r[0] == '0' ==> n == 0
    decreases n
  {
    if n < 10 then [DigitChar(n)] else NatText(n / 10) + [DigitChar(n % 10)]
  }

  /** Reads a numeral back, most significant digit first. */
  function ParseNat(s: string): nat
    requires IsDigits(s)
  {
    if s == [] then 0 else 10 * ParseNat(s[..|s| - 1]) + DigitValue(s[|s| - 1])
  }

  /** JavaScript's text of an integer-valued number n with |n| <= 2^53: a
      minus sign, then the numeral. */
  function IntText(n: int): (r: string)
    ensures |r| >= 1
    ensures n >= 0 ==> IsDigits(r) && ParseNat(r) == n
    ensures n >= 0 && r[0] == '0' ==> n == 0
    ensures n < 0 ==> |r| >= 2 && r[0] == '-' && IsDigits(r[1..]) && ParseNat(r[1..]) == -n
    ensures n < 0 ==> r[1] != '0'
  {
    ParseNatText(if n < 0 then -n else n);
    if n < 0 then
      assert ("-" + NatText(-n))[1..] == NatText(-n);
      "-" + NatText(-n)
    else NatText(n)
  }

  lemma {:induction false} ParseNatText(n: nat)
    ensures ParseNat(NatText(n)) == n
  {
    if n >= 10 {
      var s := NatText(n);
      assert s[..|s| - 1] == NatText(n / 10);
      ParseNatText(n / 10);
      assert DigitValue(s[|s| - 1]) == n % 10;
    } else {
      assert NatText(n)[..0] == [];
    }
  }

  lemma NatTextInjective(m: nat, n: nat)
    ensures NatText(m) == NatText(n) <==> m == n
  {
    ParseNatText(m);
    ParseNatText(n);
  }
}

=== FILE: escape.dfy ===
/** The HTML escaper `escapeHtml` of app.js: five chained `replaceAll`
    calls that rewrite `&`, `<`, `>`, `"` and `'` into character
    references, `&` first. Every title and type is put into markup and
    attribute values through it. */
module HtmlEscape {

  /** `s.replaceAll(c, rep)` for a one-character pattern: every occurrence
      of c, scanning left to right, is replaced by rep; the replacement
      text is not scanned again. */
  function ReplaceAll(s: string, c: char, rep: string): (r: string)
    ensures c !in s ==> r == s
    ensures |rep| >= 1 ==> |r| >= |s|
  {
    if s == [] then []
    else (if s[0] == c then rep else [s[0]]) + ReplaceAll(s[1..], c, rep)
  }

  predicate IsSpecial(c: char) {
    c == '&' || c == '<' || c == '>' || c == '"' || c == '\''
  }

  /** The characters that may never appear raw in escaped text. */
  predicate MarkupFree(s: string) {
    forall i :: 0 <= i < |s| ==> s[i] != '<' && s[i] != '>' && s[i] != '"' && s[i] != '\''
  }

  /** app.js `escapeHtml`, in the order the source chains the replacements. */
  function EscapeHtml(s: string): (r: string)
    ensures |r| >= |s|
    ensures (forall i :: 0 <= i < |s| ==> !IsSpecial(s[i])) ==> r == s
  {
    var amp := ReplaceAll(s, '&', "&amp;");
    var lt := ReplaceAll(amp, '<', "&lt;");
    var gt := ReplaceAll(lt, '>', "&gt;");
    var quot := ReplaceAll(gt, '"', "&quot;");
    ReplaceAll(quot, '\'', "&#039;")
  }

  /** Reference definition: the escape of one character. */
  function EscapeChar(c: char): (r: string)
    ensures |r| >= 1
  {
    if c == '&' then "&amp;"
    else if c == '<' then "&lt;"
    else if c == '>' then "&gt;"
    else if c == '"' then "&quot;"
    else if c == '\'' then "&#039;"
    else [c]
  }

  /** Reference definition: every character escaped on its own, in order. */
  function EscapeEach(s: string): string {
    if s == [] then [] else EscapeChar(s[0]) + EscapeEach(s[1..])
  }

  /** A text that starts with one of the five character references. */
  predicate BeginsReference(t: string) {
    "&amp;" <= t || "&lt;" <= t || "&gt;" <= t || "&quot;" <= t || "&#039;" <= t
  }

  /** Decoder of the five character references; every other character,
      including a `&` that starts none of them, is copied. */
  function Unescape(s: string): string
    decreases |s|
  {
    if s == [] then []
    else if "&amp;" <= s then "&" + Unescape(s[5..])
    else if "&lt;" <= s then "<" + Unescape(s[4..])
    else if "&gt;" <= s then ">" + Unescape(s[4..])
    else if "&quot;" <= s then "\"" + Unescape(s[6..])
    else if "&#039;" <= s then "'" + Unescape(s[6..])
    else [s[0]] + Unescape(s[1..])
  }

  /** Number of occurrences of c in s. */
  function Count(s: string, c: char): nat {
    if s == [] then 0 else (if s[0] == c then 1 else 0) + Count(s[1..], c)
  }

  lemma {:induction false} ReplaceAllConcat(a: string, b: string, c: char, rep: string)
    ensures ReplaceAll(a + b, c, rep) == ReplaceAll(a, c, rep) + ReplaceAll(b, c, rep)
  {
    if a == [] {
      assert a + b == b;
    } else {
      assert (a + b)[0] == a[0];
      assert (a + b)[1..] == a[1..] + b;
      ReplaceAllConcat(a[1..], b, c, rep);
    }
  }

  /** Escaping distributes over concatenation. */
  lemma EscapeHtmlConcat(a: string, b: string)
    ensures EscapeHtml(a + b) == EscapeHtml(a) + EscapeHtml(b)
  {
    ReplaceAllConcat(a, b, '&', "&amp;");
    var a1, b1 := ReplaceAll(a, '&', "&amp;"), ReplaceAll(b, '&', "&amp;");
    ReplaceAllConcat(a1, b1, '<', "&lt;");
    var a2, b2 := ReplaceAll(a1, '<', "&lt;"), ReplaceAll(b1, '<', "&lt;");
    ReplaceAllConcat(a2, b2, '>', "&gt;");
    var a3, b3 := ReplaceAll(a2, '>', "&gt;"), ReplaceAll(b2, '>', "&gt;");
    ReplaceAllConcat(a3, b3, '"', "&quot;");
    var a4, b4 := ReplaceAll(a3, '"', "&quot;"), ReplaceAll(b3, '"', "&quot;");
    ReplaceAllConcat(a4, b4, '\'', "&#039;");
  }

  /** On one character the chain of replacements is the per-character escape:
      a reference introduced by one step holds none of the characters the
      later steps replace. */
  lemma EscapeHtmlChar(c: char)
    ensures EscapeHtml([c]) == EscapeChar(c)
  {
    ReplaceAllOne(c, '&', "&amp;");
    if c == '&' {
      TailUntouchedAmp();
    } else {
      ReplaceAllOne(c, '<', "&lt;");
      if c == '<' {
        TailUntouchedLt();
      } else {
        ReplaceAllOne(c, '>', "&gt;");
        if c == '>' {
          TailUntouchedGt();
        } else {
          ReplaceAllOne(c, '"', "&quot;");
          ReplaceAllOne(c, '\'', "&#039;");
          if c == '"' {
            assert '\'' !in "&quot;";
          }
        }
      }
    }
  }

  /** The references the later replacements meet hold none of the characters they replace. */
  lemma TailUntouchedAmp()
    ensures ReplaceAll(ReplaceAll(ReplaceAll(ReplaceAll("&amp;", '<', "&lt;"), '>', "&gt;"), '"', "&quot;"), '\'', "&#039;") == "&amp;"
  {
    assert '<' !in "&amp;" && '>' !in "&amp;" && '"' !in "&amp;" && '\'' !in "&amp;";
  }

  lemma TailUntouchedLt()
    ensures ReplaceAll(ReplaceAll(ReplaceAll("&lt;", '>', "&gt;"), '"', "&quot;"), '\'', "&#039;") == "&lt;"
  {
    assert '>' !in "&lt;" && '"' !in "&lt;" && '\'' !in "&lt;";
  }

  lemma TailUntouchedGt()
    ensures ReplaceAll(ReplaceAll("&gt;", '"', "&quot;"), '\'', "&#039;") == "&gt;"
  {
  }

  /** `replaceAll` on a one-character text. */
  lemma ReplaceAllOne(c: char, x: char, rep: string)
    ensures ReplaceAll([c], x, rep) == if c == x then rep else [c]
  {
    assert [c][1..] == [];
  }

  /** The chained replacements equal the per-character reference definition. */
  lemma {:induction false} EscapeHtmlIsPerCharacter(s: string)
    ensures EscapeHtml(s) == EscapeEach(s)
  {
    if s == [] {
      assert ReplaceAll(s, '&', "&amp;") == [];
    } else {
      assert s == [s[0]] + s[1..];
      EscapeHtmlConcat([s[0]], s[1..]);
      EscapeHtmlChar(s[0]);
      EscapeHtmlIsPerCharacter(s[1..]);
    }
  }

  lemma UnescapeStep(c: char, rest: string)
    ensures Unescape(EscapeChar(c) + rest) == [c] + Unescape(rest)
  {
    var t := EscapeChar(c) + rest;
    if !IsSpecial(c) {
      assert t[0] == c && t[1..] == rest;
    } else if c == '&' {
      assert t[..5] == "&amp;" && t[5..] == rest;
    } else if c == '<' {
      assert t[1] == 'l' && t[..4] == "&lt;" && t[4..] == rest;
    } else if c == '>' {
      assert t[1] == 'g' && t[..4] == "&gt;" && t[4..] == rest;
    } else if c == '"' {
      assert t[1] == 'q' && t[..6] == "&quot;" && t[6..] == rest;
    } else {
      assert t[1] == '#' && t[..6] == "&#039;" && t[6..] == rest;
    }
  }

  lemma {:induction false} UnescapeEscapeEach(s: string)
    ensures Unescape(EscapeEach(s)) == s
  {
    if s != [] {
      UnescapeStep(s[0], EscapeEach(s[1..]));
      UnescapeEscapeEach(s[1..]);
    }
  }

  /** Round trip: decoding the five references in escaped text gives the
      input back. Nothing is escaped twice because `&` is replaced first. */
  lemma UnescapeEscape(s: string)
    ensures Unescape(EscapeHtml(s)) == s
  {
    EscapeHtmlIsPerCharacter(s);
    UnescapeEscapeEach(s);
  }

  /** Distinct texts escape to distinct texts. */
  lemma EscapeHtmlInjective(s: string, t: string)
    ensures EscapeHtml(s) == EscapeHtml(t) <==> s == t
  {
    UnescapeEscape(s);
    UnescapeEscape(t);
  }

  predicate AmpersandsBeginReferences(r: string) {
    forall i :: 0 <= i < |r| && r[i] == '&' ==> BeginsReference(r[i..])
  }

  lemma {:induction false} EscapeEachAmpersands(s: string)
    ensures AmpersandsBeginReferences(EscapeEach(s))
  {
    if s != [] {
      var head, rest := EscapeChar(s[0]), EscapeEach(s[1..]);
      var r := head + rest;
      EscapeEachAmpersands(s[1..]);
      forall i | 0 <= i < |r| && r[i] == '&'
        ensures BeginsReference(r[i..])
      {
        if i < |head| {
          assert i == 0 && head <= r[i..];
        } else {
          assert r[i..] == rest[i - |head|..];
          assert rest[i - |head|] == '&';
        }
      }
    }
  }

  lemma {:induction false} EscapeEachMarkupFree(s: string)
    ensures MarkupFree(EscapeEach(s))
  {
    if s != [] {
      var head, rest := EscapeChar(s[0]), EscapeEach(s[1..]);
      EscapeEachMarkupFree(s[1..]);
      assert MarkupFree(head);
      assert forall i :: |head| <= i < |head + rest| ==> (head + rest)[i] == rest[i - |head|];
    }
  }

  /** Escaped text holds no raw `<`, `>`, `"` or `'`. */
  lemma EscapeHtmlMarkupFree(s: string)
    ensures MarkupFree(EscapeHtml(s))
  {
    EscapeHtmlIsPerCharacter(s);
    EscapeEachMarkupFree(s);
  }

  /** In escaped text every `&` starts one of the five character references. */
  lemma EscapeHtmlAmpersands(s: string)
    ensures AmpersandsBeginReferences(EscapeHtml(s))
  {
    EscapeHtmlIsPerCharacter(s);
    EscapeEachAmpersands(s);
  }

  lemma {:induction false} EscapeEachLength(s: string)
    ensures |EscapeEach(s)| == |s| + 4 * Count(s, '&') + 3 * Count(s, '<') + 3 * Count(s, '>')
                                  + 5 * Count(s, '"') + 5 * Count(s, '\'')
  {
    if s != [] {
      EscapeEachLength(s[1..]);
    }
  }

  /** The escaped length: one character stays one, `&` becomes five,
      `<` and `>` four, `"` and `'` six. */
  lemma EscapeHtmlLength(s: string)
    ensures |EscapeHtml(s)| == |s| + 4 * Count(s, '&') + 3 * Count(s, '<') + 3 * Count(s, '>')
                                 + 5 * Count(s, '"') + 5 * Count(s, '\'')
  {
    EscapeHtmlIsPerCharacter(s);
    EscapeEachLength(s);
  }

  lemma {:induction false} CountPositive(s: string, i: nat)
    requires i < |s|
    ensures Count(s, s[i]) > 0
  {
    if i > 0 {
      CountPositive(s[1..], i - 1);
    }
  }

  lemma {:induction false} EscapeEachPlain(s: string)
    requires forall i :: 0 <= i < |s| ==> !IsSpecial(s[i])
    ensures EscapeEach(s) == s
  {
    if s != [] {
      EscapeEachPlain(s[1..]);
    }
  }

  /** Escaping changes a text exactly when it holds one of the five special characters. */
  lemma EscapeHtmlFixedPoint(s: string)
    ensures EscapeHtml(s) == s <==> forall i :: 0 <= i < |s| ==> !IsSpecial(s[i])
  {
    EscapeHtmlIsPerCharacter(s);
    if forall i :: 0 <= i < |s| ==> !IsSpecial(s[i]) {
      EscapeEachPlain(s);
    } else {
      var i :| 0 <= i < |s| && IsSpecial(s[i]);
      CountPositive(s, i);
      EscapeHtmlLength(s);
    }
  }

  /** Character i of the input is written, escaped, right after the escapes
      of the characters before it: ordinary characters are kept, in order. */
  lemma {:induction false} EscapeEachConcat(a: string, b: string)
    ensures EscapeEach(a + b) == EscapeEach(a) + EscapeEach(b)
  {
    if a == [] {
      assert a + b == b;
    } else {
      assert (a + b)[0] == a[0] && (a + b)[1..] == a[1..] + b;
      EscapeEachConcat(a[1..], b);
    }
  }

  lemma EscapeHtmlPlacement(s: string, i: nat)
    requires i < |s|
    ensures var p, e := |EscapeHtml(s[..i])|, EscapeChar(s[i]);
            p + |e| <= |EscapeHtml(s)| && EscapeHtml(s)[p..p + |e|] == e
  {
    var before, after := s[..i], s[i + 1..];
    assert s[i..] == [s[i]] + after;
    assert s == before + s[i..];
    EscapeHtmlIsPerCharacter(s);
    EscapeHtmlIsPerCharacter(before);
    var pre, e, post := EscapeEach(before), EscapeChar(s[i]), EscapeEach(after);
    EscapeEachConcat(before, [s[i]] + after);
    assert ([s[i]] + after)[0] == s[i] && ([s[i]] + after)[1..] == after;
    assert EscapeEach(s) == pre + (e + post);
    assert (pre + (e + post))[|pre|..|pre| + |e|] == e;
  }
}

=== FILE: gallery.dfy ===
/** The gallery build of app.js: each section's filename list becomes an
    ordered list of item records (title, type, thumbnail and full-size URL,
    priority flag), and each record the attribute values written into its
    markup. The markup text itself is not modelled. */
module Gallery {
  import opened Decimal
  import opened HtmlEscape
  import opened Json

  const THUMB_DIR: string := "./assets/thumb/"
  const FULL_DIR: string := "./assets/full/"

  /** How many leading items of the first section load eagerly. */
  const PRIORITY_FIRST_SECTION_COUNT: nat := 6

  datatype Section = Section(key: string, rootId: string, titlePrefix: string, defaultType: string)

  const SECTIONS: seq<Section> := [
    Section("nft", "gridNft", "NFT", "Artwork"),
    Section("mobile", "gridMobile", "Mobile", "Artwork"),
    Section("personal", "gridPersonal", "Personal", "Artwork")
  ]

  /** One gallery item; `kind` is the source's `type` field. */
  datatype Item = Item(title: string, kind: string, thumbUrl: string, fullUrl: string, priority: bool)

  /** The attribute and text values of one item's markup. */
  datatype Markup = Markup(
    dataTitle: string,   // data-title, alt and the visible title
    dataType: string,    // data-type and the visible meta line
    src: string,         // src of the thumbnail
    loading: string,
    fetchPriority: string)

  /** "{titlePrefix} #{i + 1}": items are numbered from one. */
  function ItemTitle(section: Section, i: nat): (t: string)
    ensures var k := |section.titlePrefix| + 2;
            && k < |t| && t[..k] == section.titlePrefix + " #"
            && IsDigits(t[k..]) && ParseNat(t[k..]) == i + 1 && t[k] != '0'
  {
    var k := |section.titlePrefix| + 2;
    var t := section.titlePrefix + " #" + NatText(i + 1);
    assert t[k..] == NatText(i + 1);
    ParseNatText(i + 1);
    t
  }

  /** The items of one section, one per filename and in the same order. */
  function BuildSection(section: Section, files: seq<string>, isFirstSection: bool): (items: seq<Item>)
    ensures |items| == |files|
    ensures forall i :: 0 <= i < |items| ==>
      && items[i].kind == section.defaultType
      && THUMB_DIR <= items[i].thumbUrl && items[i].thumbUrl[|THUMB_DIR|..] == files[i]
      && FULL_DIR <= items[i].fullUrl && items[i].fullUrl[|FULL_DIR|..] == files[i]
      && (items[i].priority <==> isFirstSection && i < PRIORITY_FIRST_SECTION_COUNT)
  {
    seq(|files|, i requires 0 <= i < |files| =>
      Item(ItemTitle(section, i), section.defaultType, THUMB_DIR + files[i], FULL_DIR + files[i],
           isFirstSection && i < PRIORITY_FIRST_SECTION_COUNT))
  }

  /** The values `itemHtml` interpolates: title and type escaped, and the
      loading hints chosen by the priority flag. */
  function ItemMarkup(item: Item): (m: Markup)
    ensures Unescape(m.dataTitle) == item.title && MarkupFree(m.dataTitle)
    ensures Unescape(m.dataType) == item.kind && MarkupFree(m.dataType)
    ensures AmpersandsBeginReferences(m.dataTitle) && AmpersandsBeginReferences(m.dataType)
    ensures m.src == item.thumbUrl
    ensures m.loading == "eager" <==> item.priority
    ensures m.loading == "lazy" <==> !item.priority
    ensures m.fetchPriority == "high" <==> item.priority
    ensures m.fetchPriority == "auto" <==> !item.priority
  {
    UnescapeEscape(item.title);
    UnescapeEscape(item.kind);
    EscapeHtmlMarkupFree(item.title);
    EscapeHtmlMarkupFree(item.kind);
    EscapeHtmlAmpersands(item.title);
    EscapeHtmlAmpersands(item.kind);
    Markup(EscapeHtml(item.title), EscapeHtml(item.kind), item.thumbUrl,
           if item.priority then "eager" else "lazy",
           if item.priority then "high" else "auto")
  }

  /** How many items load eagerly. */
  function PriorityCount(items: seq<Item>): nat {
    if items == [] then 0 else (if items[0].priority then 1 else 0) + PriorityCount(items[1..])
  }

  function Min(a: nat, b: nat): nat {
    if a < b then a else b
  }

  /** Item i's title is the section prefix, " #", and the numeral of i + 1. */
  lemma SectionTitleNumber(section: Section, files: seq<string>, isFirstSection: bool, i: nat)
    requires i < |files|
    ensures var t, k := BuildSection(section, files, isFirstSection)[i].title, |section.titlePrefix| + 2;
            && k < |t| && t[..k] == section.titlePrefix + " #"
            && IsDigits(t[k..]) && ParseNat(t[k..]) == i + 1 && t[k] != '0'
  {
    var t := BuildSection(section, files, isFirstSection)[i].title;
    var k := |section.titlePrefix| + 2;
    assert t == (section.titlePrefix + " #") + NatText(i + 1);
    assert t[k..] == NatText(i + 1);
    ParseNatText(i + 1);
  }

  /** No two items of a section share a title. */
  lemma SectionTitlesDistinct(section: Section, files: seq<string>, isFirstSection: bool)
    ensures var items := BuildSection(section, files, isFirstSection);
            forall i, j :: 0 <= i < j < |items| ==> items[i].title != items[j].title
  {
    var items := BuildSection(section, files, isFirstSection);
    forall i, j | 0 <= i < j < |items|
      ensures items[i].title != items[j].title
    {
      SectionTitleNumber(section, files, isFirstSection, i);
      SectionTitleNumber(section, files, isFirstSection, j);
    }
  }

  lemma {:induction false} LeadingPriorityCount(items: seq<Item>, n: nat)
    requires forall i :: 0 <= i < |items| ==> (items[i].priority <==> i < n)
    ensures PriorityCount(items) == Min(n, |items|)
  {
    if items != [] {
      LeadingPriorityCount(items[1..], if n == 0 then 0 else n - 1);
    }
  }

  /** The first section marks its first six items as priority; the other
      sections mark none. */
  lemma SectionPriorityCount(section: Section, files: seq<string>, isFirstSection: bool)
    ensures PriorityCount(BuildSection(section, files, isFirstSection))
            == if isFirstSection then Min(PRIORITY_FIRST_SECTION_COUNT, |files|) else 0
  {
    var items := BuildSection(section, files, isFirstSection);
    LeadingPriorityCount(items, if isFirstSection then PRIORITY_FIRST_SECTION_COUNT else 0);
  }

  /** Generated titles hold no special character, so escaping leaves them as they are. */
  lemma GeneratedTitlesUnescaped(k: nat, i: nat)
    requires k < |SECTIONS|
    ensures EscapeHtml(ItemTitle(SECTIONS[k], i)) == ItemTitle(SECTIONS[k], i)
  {
    var t := ItemTitle(SECTIONS[k], i);
    var digits := NatText(i + 1);
    forall j | 0 <= j < |t|
      ensures !IsSpecial(t[j])
    {
      var p := SECTIONS[k].titlePrefix + " #";
      if j >= |p| {
        assert t[j] == digits[j - |p|];
      }
    }
    EscapeHtmlFixedPoint(t);
  }

  // ---------- the manifest ----------

  /** `data.<key>` for a section key: null and undefined throw; an object
      yields its own member or undefined; every other value has no such
      property. */
  function ManifestField(data: JsValue, key: string): (r: Result<JsValue>)
    requires key == "nft" || key == "mobile" || key == "personal"
    ensures r.TypeError? <==> data.Null? || data.Undefined?
    ensures r.Success? && r.value != Undefined ==> data.Object? && key in data.props
    ensures data.Object? ==> r == Success(if key in data.props then data.props[key] else Undefined)
    ensures !data.Object? && r.Success? ==> r.value == Undefined
  {
    match data
    case Null => TypeError
    case Undefined => TypeError
    case Object(props) => Success(if key in props then props[key] else Undefined)
    case _ => Success(Undefined)
  }

  /** Section k's filename list from the parsed manifest. */
  function SectionFiles(data: JsValue, k: nat): (r: Result<seq<JsValue>>)
    requires k < |SECTIONS|
    ensures r.TypeError? <==> data.Null? || data.Undefined?
    ensures var key := SECTIONS[k].key;
            r.Success? ==>
              if data.Object? && key in data.props && data.props[key].Array?
              then r.value == data.props[key].elems
              else r.value == []
  {
    match ManifestField(data, SECTIONS[k].key)
    case TypeError => TypeError
    case Success(v) => Success(NormalizeArray(v))
  }

  /** Section k's items, the first section being the priority one. */
  function SectionItems(data: JsValue, k: nat): (r: Result<seq<Item>>)
    requires k < |SECTIONS|
    ensures r.Success? <==> SectionFiles(data, k).Success? && FileNames(SectionFiles(data, k).value).Success?
    ensures r.Success? ==> r.value == BuildSection(SECTIONS[k], FileNames(SectionFiles(data, k).value).value, k == 0)
  {
    match SectionFiles(data, k)
    case TypeError => TypeError
    case Success(files) =>
      match FileNames(files)
      case TypeError => TypeError
      case Success(names) => Success(BuildSection(SECTIONS[k], names, k == 0))
  }

  /** The body of `init` after the manifest is parsed: the three sections'
      items, or a thrown TypeError, which makes every grid show the error
      message instead. */
  function BuildGallery(data: JsValue): (r: Result<seq<seq<Item>>>)
    ensures r.Success? <==> forall k :: 0 <= k < |SECTIONS| ==> SectionItems(data, k).Success?
    ensures r.Success? ==> (|r.value| == |SECTIONS|
      && forall k :: 0 <= k < |SECTIONS| ==> r.value[k] == SectionItems(data, k).value)
  {
    match (SectionItems(data, 0), SectionItems(data, 1), SectionItems(data, 2))
    case (Success(nft), Success(mobile), Success(personal)) => Success([nft, mobile, personal])
    case _ => TypeError
  }

  /** A manifest that is null, or whose list holds an unconvertible member, shows no section. */
  lemma GalleryFails(data: JsValue)
    ensures data.Null? ==> BuildGallery(data).TypeError?
    ensures (exists k, i :: 0 <= k < |SECTIONS| && SectionFiles(data, k).Success? && 0 <= i < |SectionFiles(data, k).value|
               && TemplateText(SectionFiles(data, k).value[i]).TypeError?)
            ==> BuildGallery(data).TypeError?
  {
    if exists k, i :: 0 <= k < |SECTIONS| && SectionFiles(data, k).Success? && 0 <= i < |SectionFiles(data, k).value|
                      && TemplateText(SectionFiles(data, k).value[i]).TypeError? {
      var k, i :| 0 <= k < |SECTIONS| && SectionFiles(data, k).Success? && 0 <= i < |SectionFiles(data, k).value|
                  && TemplateText(SectionFiles(data, k).value[i]).TypeError?;
      assert FileNames(SectionFiles(data, k).value).TypeError?;
    }
  }

  /** A section whose manifest field is absent or not an array has no items. */
  lemma MissingFieldNoItems(data: JsValue, k: nat)
    requires k < |SECTIONS|
    requires data.Object?
    requires SECTIONS[k].key !in data.props || !data.props[SECTIONS[k].key].Array?
    ensures SectionItems(data, k) == Success([])
  {
  }

  /** A manifest object whose three fields are absent, non-arrays or lists of
      strings builds every section from exactly those filenames. */
  lemma StringManifest(data: JsValue)
    requires data.Object?
    requires forall k :: 0 <= k < |SECTIONS| && SECTIONS[k].key in data.props && data.props[SECTIONS[k].key].Array? ==>
               forall i :: 0 <= i < |data.props[SECTIONS[k].key].elems| ==> data.props[SECTIONS[k].key].elems[i].Str?
    ensures BuildGallery(data).Success?
    ensures forall k :: 0 <= k < |SECTIONS| ==>
      var files := NormalizeArray(if SECTIONS[k].key in data.props then data.props[SECTIONS[k].key] else Undefined);
      BuildGallery(data).value[k] == BuildSection(SECTIONS[k], seq(|files|, i requires 0 <= i < |files| => files[i].s), k == 0)
  {
    forall k | 0 <= k < |SECTIONS|
      ensures var files := NormalizeArray(if SECTIONS[k].key in data.props then data.props[SECTIONS[k].key] else Undefined);
              SectionItems(data, k) == Success(BuildSection(SECTIONS[k], seq(|files|, i requires 0 <= i < |files| => files[i].s), k == 0))
    {
      var files := SectionFiles(data, k).value;
      FileNamesOfStrings(files);
    }
  }

  /** At most six items of the whole gallery load eagerly, all in the first section. */
  lemma GalleryPriority(data: JsValue)
    requires BuildGallery(data).Success?
    ensures var g := BuildGallery(data).value;
            && PriorityCount(g[0]) <= PRIORITY_FIRST_SECTION_COUNT
            && PriorityCount(g[1]) == 0 && PriorityCount(g[2]) == 0
  {
    var g := BuildGallery(data).value;
    forall k | 0 <= k < |SECTIONS|
      ensures PriorityCount(g[k]) == if k == 0 then Min(PRIORITY_FIRST_SECTION_COUNT, |g[k]|) else 0
    {
      var names := FileNames(SectionFiles(data, k).value).value;
      SectionPriorityCount(SECTIONS[k], names, k == 0);
    }
  }
}

=== FILE: json.dfy ===
/** The JavaScript values that `res.json()` can hand to app.js, and the two
    things app.js does with them: `normalizeArray` and the string conversion
    a template literal applies to a manifest filename. */
module Json {
  import opened Decimal

  /** A parsed JSON value, plus `undefined` for a property that is absent.
      Numbers are integer-valued; objects map each key to its last value. */
  datatype JsValue =
    | Undefined
    | Null
    | Bool(b: bool)
    | Number(n: int)
    | Str(s: string)
    | Array(elems: seq<JsValue>)
    | Object(props: map<string, JsValue>)

  /** A computation that either yields a value or throws a TypeError. */
  datatype Result<T> = Success(value: T) | TypeError

  /** app.js `normalizeArray`: an array is kept as it is; anything else,
      `undefined` and `null` included, becomes the empty list. */
  function NormalizeArray(x: JsValue): (r: seq<JsValue>)
    ensures x.Array? ==> r == x.elems
    ensures !x.Array? ==> r == []
  {
    if x.Array? then x.elems else []
  }

  /** `${v}`: the string conversion of a template literal. An array is
      joined with commas (null and undefined members become empty); a plain
      object prints as "[object Object]", but one with its own `toString`
      key, which JSON can only make non-callable, throws a TypeError. */
  function TemplateText(v: JsValue): (r: Result<string>)
    ensures v.Str? ==> r == Success(v.s)
    ensures r.TypeError? ==> v.Array? || v.Object?
    decreases v, if v.Array? then |v.elems| + 1 else 0
  {
    match v
    case Undefined => Success("undefined")
    case Null => Success("null")
    case Bool(b) => Success(if b then "true" else "false")
    case Number(n) => Success(IntText(n))
    case Str(s) => Success(s)
    case Array(elems) => JoinFrom(v, 0)
    case Object(props) => if "toString" in props then TypeError else Success("[object Object]")
  }

  /** `Array.prototype.join(",")` over the members from index i on. */
  function JoinFrom(v: JsValue, i: nat): Result<string>
    requires v.Array? && i <= |v.elems|
    decreases v, |v.elems| - i
  {
    if i == |v.elems| then Success("")
    else
      var e := v.elems[i];
      var head := if e.Null? || e.Undefined? then Success("") else TemplateText(e);
      if head.TypeError? then TypeError
      else if i + 1 == |v.elems| then head
      else match JoinFrom(v, i + 1)
        case TypeError => TypeError
        case Success(tail) => Success(head.value + "," + tail)
  }

  /** The filenames of one manifest list, each converted as `${filename}`;
      the first member that cannot be converted makes the whole list throw. */
  function FileNames(files: seq<JsValue>): (r: Result<seq<string>>)
    ensures r.Success? ==> |r.value| == |files|
    ensures r.Success? ==> forall i :: 0 <= i < |files| ==> TemplateText(files[i]) == Success(r.value[i])
    ensures r.TypeError? <==> exists i :: 0 <= i < |files| && TemplateText(files[i]).TypeError?
  {
    if files == [] then Success([])
    else match (TemplateText(files[0]), FileNames(files[1..]))
      case (Success(name), Success(rest)) =>
        assert forall i :: 1 <= i < |files| ==> files[i] == files[1..][i - 1];
        Success([name] + rest)
      case (TypeError, _) => TypeError
      case (_, TypeError) =>
        var j :| 0 <= j < |files[1..]| && TemplateText(files[1..][j]).TypeError?;
        assert TemplateText(files[j + 1]).TypeError?;
        TypeError
  }

  /** A list made only of strings converts to exactly those strings. */
  lemma FileNamesOfStrings(files: seq<JsValue>)
    requires forall i :: 0 <= i < |files| ==> files[i].Str?
    ensures FileNames(files) == Success(seq(|files|, i requires 0 <= i < |files| => files[i].s))
  {
    var names := seq(|files|, i requires 0 <= i < |files| => files[i].s);
    forall i | 0 <= i < |files|
      ensures TemplateText(files[i]) == Success(names[i])
    {
    }
    var r := FileNames(files);
    assert r.Success?;
    assert r.value == names;
  }
}

=== FILE: nav.dfy ===
/** The mobile header of app.js: the burger menu and the rule that hides
    the navigation bar while scrolling down and shows it again while
    scrolling up. Scroll positions are reals, as `window.scrollY` may be
    fractional. */
module Nav {

  /** Below this position the bar is never hidden by a downward scroll. */
  const HIDE_MIN_Y: real := 120.0
  /** Moves of at most this many pixels change nothing. */
  const MIN_DELTA: real := 6.0

  /** The header state: the last processed scroll position, the bar's
      `nav--hidden` class, the menu's `is-open` class, and whether the page
      is scroll-locked (`body.style.overflow` is "hidden"). */
  datatype NavState = NavState(lastY: real, navHidden: bool, menuOpen: bool, bodyLocked: bool)

  function Abs(x: real): real {
    if x < 0.0 then -x else x
  }

  /** The menu and the page lock move together. */
  predicate Consistent(s: NavState) {
    s.bodyLocked == s.menuOpen
  }

  /** `openMenu`. */
  function OpenedMenu(s: NavState): (r: NavState)
    ensures r.menuOpen && r.bodyLocked && Consistent(r)
    ensures r.lastY == s.lastY && r.navHidden == s.navHidden
  {
    s.(menuOpen := true, bodyLocked := true)
  }

  /** `closeMenu`. */
  function ClosedMenu(s: NavState): (r: NavState)
    ensures !r.menuOpen && !r.bodyLocked && Consistent(r)
    ensures r.lastY == s.lastY && r.navHidden == s.navHidden
  {
    s.(menuOpen := false, bodyLocked := false)
  }

  /** The burger button: close an open menu, open a closed one. */
  function Toggled(s: NavState): (r: NavState)
    ensures r.menuOpen == !s.menuOpen
    ensures Consistent(r)
    ensures r.lastY == s.lastY && r.navHidden == s.navHidden
  {
    if s.menuOpen then ClosedMenu(s) else OpenedMenu(s)
  }

  /** One processed animation frame of the scroll handler at position y. */
  function Frame(s: NavState, y: real): (r: NavState)
    ensures r.lastY == y && !r.menuOpen
    ensures Consistent(s) ==> Consistent(r)
    ensures y > s.lastY && y > HIDE_MIN_Y && Abs(y - s.lastY) > MIN_DELTA ==> r.navHidden
    ensures y <= s.lastY && Abs(y - s.lastY) > MIN_DELTA ==> !r.navHidden
    ensures Abs(y - s.lastY) <= MIN_DELTA || (s.lastY < y <= HIDE_MIN_Y) ==> r.navHidden == s.navHidden
  {
    var goingDown := y > s.lastY;
    var delta := Abs(y - s.lastY);
    var closed := if s.menuOpen then ClosedMenu(s) else s;
    var hidden :=
      if goingDown && y > HIDE_MIN_Y && delta > MIN_DELTA then true
      else if !goingDown && delta > MIN_DELTA then false
      else s.navHidden;
    closed.(navHidden := hidden, lastY := y)
  }

  /** The frames for the positions ys, one after the other. */
  function Run(s: NavState, ys: seq<real>): NavState
    decreases |ys|
  {
    if ys == [] then s else Run(Frame(s, ys[0]), ys[1..])
  }

  /** Every move of the trace, starting from prev, is at most MIN_DELTA. */
  predicate SmallMoves(prev: real, ys: seq<real>)
    decreases |ys|
  {
    ys == [] || (Abs(ys[0] - prev) <= MIN_DELTA && SmallMoves(ys[0], ys[1..]))
  }

  /** After a non-empty trace the last position is recorded and the menu is closed. */
  lemma {:induction false} RunEnd(s: NavState, ys: seq<real>)
    requires ys != []
    ensures Run(s, ys).lastY == ys[|ys| - 1] && !Run(s, ys).menuOpen
    decreases |ys|
  {
    if |ys| > 1 {
      RunEnd(Frame(s, ys[0]), ys[1..]);
    }
  }

  /** A visible bar stays visible while the page stays within HIDE_MIN_Y of the top. */
  lemma {:induction false} RunNearTopStaysVisible(s: NavState, ys: seq<real>)
    requires !s.navHidden
    requires forall k :: 0 <= k < |ys| ==> ys[k] <= HIDE_MIN_Y
    ensures !Run(s, ys).navHidden
    decreases |ys|
  {
    if ys != [] {
      RunNearTopStaysVisible(Frame(s, ys[0]), ys[1..]);
    }
  }

  /** Jitter of at most MIN_DELTA per frame never hides or shows the bar. */
  lemma {:induction false} RunSmallMovesKeepBar(s: NavState, ys: seq<real>)
    requires SmallMoves(s.lastY, ys)
    ensures Run(s, ys).navHidden == s.navHidden
    decreases |ys|
  {
    if ys != [] {
      RunSmallMovesKeepBar(Frame(s, ys[0]), ys[1..]);
    }
  }

  /** The menu and page lock stay in step over any trace. */
  lemma {:induction false} RunConsistent(s: NavState, ys: seq<real>)
    requires Consistent(s)
    ensures Consistent(Run(s, ys))
    decreases |ys|
  {
    if ys != [] {
      RunConsistent(Frame(s, ys[0]), ys[1..]);
    }
  }

  /** The header controller: the module-level `lastY` and the classes the
      handlers toggle, with the nav bar and the menu assumed present. */
  class NavBar {
    var lastY: real
    var navHidden: bool
    var menuOpen: bool
    var bodyLocked: bool

    function State(): NavState
      reads this
    {
      NavState(lastY, navHidden, menuOpen, bodyLocked)
    }

    predicate Valid()
      reads this
    {
      Consistent(State())
    }

    /** Script start: `lastY` is the position at load, the bar visible, the menu closed. */
    constructor (scrollY: real)
      ensures Valid()
      ensures State() == NavState(scrollY, false, false, false)
    {
      lastY, navHidden, menuOpen, bodyLocked := scrollY, false, false, false;
    }

    method OpenMenu()
      modifies this
      ensures State() == OpenedMenu(old(State()))
    {
      menuOpen, bodyLocked := true, true;
    }

    method CloseMenu()
      modifies this
      ensures State() == ClosedMenu(old(State()))
    {
      menuOpen, bodyLocked := false, false;
    }

    /** A click on the burger button. */
    method ToggleMenu()
      modifies this
      ensures State() == Toggled(old(State()))
      ensures Valid()
    {
      var isOpen := menuOpen;
      if isOpen {
        CloseMenu();
      } else {
        OpenMenu();
      }
    }

    /** A click inside the menu closes it when the click's target is an `a` element. */
    method MenuClick(targetIsAnchor: bool)
      modifies this
      ensures State() == if targetIsAnchor then ClosedMenu(old(State())) else old(State())
    {
      if targetIsAnchor {
        CloseMenu();
      }
    }

    /** A resize to the desktop layout closes the menu. */
    method Resize(mobile: bool)
      modifies this
      ensures State() == if mobile then old(State()) else ClosedMenu(old(State()))
    {
      if !mobile {
        CloseMenu();
      }
    }

    /** One processed scroll frame at position y. */
    method Step(y: real)
      modifies this
      ensures State() == Frame(old(State()), y)
      ensures old(Valid()) ==> Valid()
    {
      var goingDown := y > lastY;
      var delta := Abs(y - lastY);
      if menuOpen {
        CloseMenu();
      }
      if goingDown && y > HIDE_MIN_Y && delta > MIN_DELTA {
        navHidden := true;
      } else if !goingDown && delta > MIN_DELTA {
        navHidden := false;
      }
      lastY := y;
    }

    /** A scroll event: only the mobile layout reacts to it. */
    method Scroll(y: real, mobile: bool)
      modifies this
      ensures State() == if mobile then Frame(old(State()), y) else old(State())
      ensures old(Valid()) ==> Valid()
    {
      if mobile {
        Step(y);
      }
    }
  }
}
